=== FILE: README.md ===
# Tumbler directory and FreeCAD thumbnailers, in Dafny

This project models the two thumbnailer plugins of tumbler-fcstd-thumbnailer:

- The **directory thumbnailer** (`dir-thumbnailer.c`) gives a folder the
  thumbnail cached in its `.thumbnails` subdirectory. It scans that
  subdirectory for images named after their size (`128.png`, `256.jpg`, …),
  picks the one that best matches the requested flavor, decodes it scaled
  into the flavor's box and saves it.
- The **FreeCAD thumbnailer** (`fcstd-thumbnailer.c`) opens a `.FCStd`
  document as a ZIP archive. It finds the embedded preview under one of
  three fixed entry paths, decodes it scaled into the flavor's box and
  saves it.

Each thumbnailing job is a pure function. It maps the results of the
library calls it makes (path tests, directory listing, file contents, ZIP
entries, the image codec, the save) to what it does to the cached
thumbnail: leave it alone, delete it, or save an image stamped with the
file's mtime. It also says which signal the job emits: `error` with a
code and message, `ready`, or none when the job is cancelled on entry.

Modules, one per file:

| module | file | what it holds |
|---|---|---|
| `Common` | common.dfy | sizes, errors, pixbufs, signals, job outcomes; `Finish`, the signal emitted at the end of a job |
| `Scaling` | scaling.dfy | the size-prepared rule shared by both plugins, with exact rational ratios and round-half-to-even |
| `Filenames` | filenames.dfy | which cached file names qualify and the size each advertises (`strrchr`, `g_ascii_strcasecmp`, `strtol`) |
| `Selection` | selection.dfy | the scan of `find_best_thumbnail_image` as a left fold, and `Expected`, its closed-form reference |
| `Loader` | loader.dfy | `load_image_file` / `fcstd_thumbnailer_create_from_data`: one loader write, then close, with the codec as an oracle |
| `Archive` | archive.dfy | `fcstd_thumbnailer_create_zip`: preview lookup order and the whole-entry read |
| `DirThumbnailer` | dir.dfy | `dir_thumbnailer_create` |
| `FcstdThumbnailer` | fcstd.dfy | `fcstd_thumbnailer_create` |

Three behaviours of the C code are worth spelling out:

- **Cache {128, 256}, request 200.** The comment above the selection branch
  (dir-thumbnailer.c:114-117) reads as "the largest size that fits, else the
  smallest larger one". The branches below it let an oversized candidate
  replace an undersized one and never the reverse, so the scan selects
  `256.png` in either listing order (`Selection.OversizedBeatsUndersized`).
  The general rule is the closed form `Selection.Expected`. With nothing
  at or above the request, the scan takes the largest size. Otherwise it
  looks at the first size in listing order that reaches the request. If
  that size equals the request, the exact match wins. If it exceeds the
  request, the smallest size above the request wins.
- **Archive that is not a ZIP.** The code forwards libgsf's own error, or
  reports `NO_CONTENT` with "Failed to open as ZIP archive" when libgsf set
  none (`FcstdThumbnailer.ZipFailureReported`).
- **Archive without a preview.** The code emits `ready` and saves nothing
  (`FcstdThumbnailer.MissingPreviewIsReady`). The same holds when the
  preview entry cannot be read, and when the codec succeeds without
  producing an image (`FcstdThumbnailer.ImagelessDecodeIsReady`).

## Model

| member | source | states |
|---|---|---|
| Common.Finish | dir-thumbnailer.c:269-276 | the job's single signal names the job's URI; it is `ready` exactly when no error is pending, and otherwise carries that error's code and message |
| Scaling.RoundHalfEven | dir-thumbnailer.c:71-73 | `rint` of a non-negative ratio: the result is within half a unit of n/d, and even on an exact tie |
| Scaling.NearestEvenUnique | dir-thumbnailer.c:71-73 | at most one integer meets the nearest-even condition, so the rounding is fully determined |
| Scaling.SizePrepared | dir-thumbnailer.c:51-76 | the decoded size fits the flavor box and never exceeds the natural size; an image that fits keeps its size; otherwise the axis with the strictly larger ratio takes the box bound and the other is the proportional size rounded to nearest-even, raised to at least 1 |
| Scaling.ProportionalWidth | dir-thumbnailer.c:70-71 | when the height ratio wins, the width is `rint (sw * dh / sh)` or 1, and fits both the box and the source |
| Scaling.ProportionalHeight | dir-thumbnailer.c:72-73 | when the width ratio wins or ties, the height is `rint (sh * dw / sw)` or 1, and fits both the box and the source |
| Scaling.HeightBoundShrinks | dir-thumbnailer.c:64-71 | an image that does not fit and whose height ratio wins is taller than the box, and its proportional width is at most the box width |
| Scaling.WidthBoundShrinks | dir-thumbnailer.c:64-73 | an image that does not fit and whose width ratio wins or ties is wider than the box, and its proportional height is at most the box height |
| Filenames.LastIndexOf | dir-thumbnailer.c:96 | `strrchr`: a found index holds the character and no later one does; not found means the character is absent |
| Filenames.AsciiDown | dir-thumbnailer.c:101-105 | ASCII case folding keeps the length and folds each character by `g_ascii_tolower`, as `g_ascii_strcasecmp` compares |
| Filenames.LeadingSpaces | dir-thumbnailer.c:110 | `strtol` skips exactly the maximal run of C-locale white space at the front |
| Filenames.SizeOfNumberedName | dir-thumbnailer.c:96-113 | every name made of white space, an optional `+`, a positive decimal, a dot and png/jpg/jpeg/svg/svgz in any letter case qualifies, with the decimal's value as its size |
| Filenames.SizeOfOnlyNumberedNames | dir-thumbnailer.c:96-113 | conversely, every qualifying name splits into exactly those parts, and its size is the decimal's value |
| Filenames.WholeDecimalOfParts | dir-thumbnailer.c:110-113 | white space, an optional `+` and digits are consumed entirely by `strtol` and read as the digits' value |
| Filenames.PositiveDecimalParts | dir-thumbnailer.c:110-113 | a text consumed entirely with a positive value is white space, an optional `+` and the digits of that value |
| Filenames.ComposeDot | dir-thumbnailer.c:96-100 | in a numbered name the only dot is the one before the extension, so `strrchr` splits it there |
| Filenames.RejectedNames | dir-thumbnailer.c:96-113 | names without a dot, with nothing before the dot, or with a dot inside the number are skipped |
| Selection.Step | dir-thumbnailer.c:113-138 | one scan iteration either keeps the choice or replaces it with this name at its own size; an exact match is never displaced; an oversized choice only shrinks and stays above the request; an undersized choice only grows; a name of the same size as the choice never displaces it |
| Selection.Sizes | dir-thumbnailer.c:94-113 | the qualifying sizes in listing order: every qualifying name's size is among them, and there are none exactly when no name qualifies |
| Selection.SizesInListingOrder | dir-thumbnailer.c:94-113 | every listed size is the size of a qualifying name, and the sizes appear in the order of their names in the listing |
| Selection.FindBestMatchesReference | dir-thumbnailer.c:80-147 | the scan selects nothing exactly when no name qualifies, and otherwise selects a name whose size is the closed form `Expected` of the qualifying sizes |
| Selection.StepMatchesReference | dir-thumbnailer.c:118-138 | one iteration moves the scan's choice the way appending the name's size moves the closed form |
| Selection.ExpectedAppend | dir-thumbnailer.c:118-138 | appending a size moves the closed form exactly as the four branches of the loop body move the choice |
| Selection.ScanAppend | dir-thumbnailer.c:94-143 | scanning a listing plus one more name is one more iteration after scanning the listing |
| Selection.ScanChoosesCandidate | dir-thumbnailer.c:118-138 | the scan's choice is always a qualifying name from the listing, carrying that name's own size |
| Selection.ScanKeepsExactMatch | dir-thumbnailer.c:118-138 | once the choice equals the request, no later name replaces it |
| Selection.ScanOversizedShrinks | dir-thumbnailer.c:128-132 | once the choice is above the request it stays above it and ends no larger than any later oversized name |
| Selection.StepKeepsRefusal | dir-thumbnailer.c:118-138 | a name the current choice refuses is still refused after any further step of the scan |
| Selection.SeenSizeRefused | dir-thumbnailer.c:118-138 | once a size has been seen, a later name of that size no longer changes the choice |
| Selection.ChosenIsFirstOfItsSize | dir-thumbnailer.c:118-138 | the scan keeps the first listed name of the size it settles on, since every replacing branch compares sizes strictly |
| Selection.SelectsLargestWhenNothingOversized | dir-thumbnailer.c:123-127 | when no qualifying size exceeds the request, a name is selected exactly when one qualifies, and its size is the largest qualifying size |
| Selection.SelectsSmallestOversized | dir-thumbnailer.c:128-137 | when the first size to reach the request exceeds it, the selected size is the smallest size above the request, wherever that name is listed |
| Selection.SelectsExactMatchSeenFirst | dir-thumbnailer.c:118-138 | when the first size to reach the request equals it, the exact match is selected |
| Selection.SelectionIgnoresOrderWithoutExactMatch | dir-thumbnailer.c:94-138 | two listings with the same qualifying sizes, none equal to the request, select the same size |
| Selection.ExpectedIgnoresOrder | dir-thumbnailer.c:118-138 | the closed form depends only on which sizes occur, as long as none equals the request |
| Selection.OversizedBeatsUndersized | dir-thumbnailer.c:133-137 | with `128.png` and `256.png` and a request of 200, `256.png` is selected in either listing order |
| Selection.ExactMatchDependsOnOrder | dir-thumbnailer.c:128-132 | with `200.png` and `256.png` and a request of 200, the exact match wins only when listed first |
| Selection.FindBestThumbnailImage | dir-thumbnailer.c:80-147 | nothing is selected exactly when the directory cannot be opened or no name in it qualifies; a selection is the directory joined with a qualifying name from the listing whose size is the closed-form choice `Expected` over the listing's sizes; among names of the chosen size the first listed wins |
| Loader.ScaledPixbuf | dir-thumbnailer.c:165-172 | the decoded pixbuf has the size-prepared size: the natural size when that fits, otherwise the box bound on the axis with the larger ratio and the rounded proportional size on the other; it fits the box, never exceeds the natural size, and keeps the alpha, bit depth and colorspace |
| Loader.DecodeScaled | dir-thumbnailer.c:163-182 | a pixbuf comes back exactly when write and close both succeed and the codec produced an image; a failed write reports the write error whatever close does; a failed close after a good write reports the close error; both succeeding without an image gives no pixbuf and no error |
| Loader.LoadImageFile | dir-thumbnailer.c:150-183 | an unreadable file reports its read error; a readable one is decoded whole; any pixbuf fits the box |
| Archive.FindPreviewEntry | fcstd-thumbnailer.c:113-120 | the preview is the first of `Thumbnails/Thumbnail.png`, `thumbnails/Thumbnail.png`, `Thumbnail.png` present in the archive, and there is none exactly when all three are absent |
| Archive.LowerCaseFolderBeatsRoot | fcstd-thumbnailer.c:114-118 | the lower-case folder entry is preferred over the root entry |
| Archive.Read | fcstd-thumbnailer.c:123 | data comes back exactly when the read succeeds and the stream still holds the requested count, and it is the next that many bytes of the stream, in order |
| Archive.ReadRemainingIsWholeEntry | fcstd-thumbnailer.c:122-123 | reading the remaining bytes of a fresh entry stream yields the whole entry |
| Archive.CreateZip | fcstd-thumbnailer.c:106-130 | no preview entry, or a read that delivers nothing, gives no pixbuf and no error; otherwise the codec is fed exactly the whole preview entry |
| FcstdThumbnailer.Create | fcstd-thumbnailer.c:132-202 | silent exactly when cancelled on entry, otherwise one signal for the file's URI; never deletes; a save is stamped with the mtime and fits the flavor; after a save the signal is `ready` exactly when the save succeeded; a failed save is reported with the save's own code and message |
| FcstdThumbnailer.InputFailureReported | fcstd-thumbnailer.c:148-156 | an input stream that cannot be opened ends the job with exactly that error, thumbnail untouched |
| FcstdThumbnailer.ZipFailureReported | fcstd-thumbnailer.c:163-174 | a failed ZIP open reports libgsf's error, or NO_CONTENT "Failed to open as ZIP archive" when there is none, thumbnail untouched |
| FcstdThumbnailer.MissingPreviewIsReady | fcstd-thumbnailer.c:120 | a document without any preview entry gets `ready` and no thumbnail |
| FcstdThumbnailer.DecodedPreviewSaved | fcstd-thumbnailer.c:176-189 | a preview that decodes is saved at the size-prepared size of its natural size in the flavor box |
| FcstdThumbnailer.SaveOnlyAfterDecode | fcstd-thumbnailer.c:176-189 | a save happens only after the input opened, the archive opened, the preview read delivered, and write and close both succeeded with an image |
| FcstdThumbnailer.LoadFailureReported | fcstd-thumbnailer.c:91-103 | once the preview is read, a failed loader write is reported as `error` with the write error, and a failed close after a good write with the close error; nothing is saved |
| FcstdThumbnailer.ImagelessDecodeIsReady | fcstd-thumbnailer.c:123-126 | with the archive open and a preview present, a read that delivers nothing, or a decode that succeeds without an image, ends with `ready` and nothing saved |
| FcstdThumbnailer.RootPreviewScenario | fcstd-thumbnailer.c:106-197 | a 512x512 root preview in a 128x128 flavor is saved at 128x128 and the job reports `ready` |
| DirThumbnailer.RequestedSize | dir-thumbnailer.c:240 | the size matched against is the larger side of the flavor box |
| DirThumbnailer.Resolve | dir-thumbnailer.c:200-249 | the thumbnail is deleted exactly when the path is a local directory without a `.thumbnails` directory; a chosen image is the scan's pick in that directory for the larger flavor side; a local directory whose cache opens and holds a qualifying name always reaches a chosen file |
| DirThumbnailer.Create | dir-thumbnailer.c:185-284 | silent exactly when cancelled on entry, otherwise one signal for the folder's URI; a save is stamped with the mtime and fits the flavor; after a save the signal is `ready` exactly when the save succeeded; a deletion goes with the NO_CONTENT "no .thumbnails" error; a failed save is reported with the save's own code and message |
| DirThumbnailer.NotADirectoryReported | dir-thumbnailer.c:204-217 | a URI without a local path, or a path that is not a directory, gives INVALID_FORMAT with the thumbnail untouched |
| DirThumbnailer.MissingCacheDeletes | dir-thumbnailer.c:225-232 | a directory without `.thumbnails` loses its cached thumbnail and gets NO_CONTENT |
| DirThumbnailer.NoCandidateReported | dir-thumbnailer.c:242-249 | a cache directory that cannot be opened or holds no qualifying name gives NO_CONTENT with the thumbnail untouched |
| DirThumbnailer.QualifyingImageChosen | dir-thumbnailer.c:243-252 | a local directory whose cache opens and lists at least one numbered image always reaches the decode, whatever the listing's length or order |
| DirThumbnailer.SaveOnlyAfterDecode | dir-thumbnailer.c:251-267 | a save happens only after an image was chosen, read, and decoded with write and close succeeding |
| DirThumbnailer.DecodedImageSaved | dir-thumbnailer.c:252-276 | a chosen image that reads and decodes is saved at the size-prepared size of its natural size in the flavor box, stamped with the mtime, and the job ends with `ready` or with the save's own error |
| DirThumbnailer.LoadFailureReported | dir-thumbnailer.c:157-183 | once an image is chosen, an unreadable file, a failed loader write, or a failed close after a good write is reported as `error` with that error, and nothing is saved |
| DirThumbnailer.ImagelessDecodeIsReady | dir-thumbnailer.c:168-174 | a chosen image whose decode succeeds without producing an image ends with `ready` and nothing saved |
| DirThumbnailer.CacheScenario | dir-thumbnailer.c:234-252 | with `128.png` and `256.png` cached, a 200x200 flavor chooses `256.png` and a 100x100 flavor chooses `128.png` |

## Left out

- `dir-thumbnailer-provider.c` and the GObject type registration (`G_DEFINE_DYNAMIC_TYPE`, class init) are not modelled. They only register the plugins with tumbler.
- File system, GIO, libgsf, gdk-pixbuf and the thumbnail cache are replaced by their results. The job takes them as fields of `DirEnv` / `FcstdEnv`, and the codec is the `Decoder` oracle. The pixels and rowstride of the saved image are not modelled, only its size, alpha, bit depth and colour space.
- Scaling.SizePrepared: ratios and `rint` are computed exactly on rationals. The C code divides in IEEE double precision twice (ratio, then quotient), which can round a result that lies within one ulp of a half differently.
- Scaling.SizePrepared: the `TUMBLER_IS_THUMBNAIL` guard of the size-prepared handler is not modelled; the handler is always connected to the job's own thumbnail.
- Filenames.WholeDecimal: the overflow saturation of `strtol` to `LONG_MAX`, and the narrowing of its `glong` result into the `gint` `best_size`, are not modelled. Sizes are unbounded integers.
- Filenames.SizeOf: names are assumed to hold no NUL character, as directory entry names do.
- Selection.FindBestThumbnailImage: `g_build_filename` is modelled as joining with one `/`. Its collapsing of repeated separators is not modelled.
- DirThumbnailer.Create: on the two early error paths (no local path, not a directory) the C cleanup unrefs `thumbnails_dir_file` and `thumbnail` before they are assigned. The model follows the evident intent (the error is emitted and nothing else happens), not the undefined behaviour.
- FcstdThumbnailer.Create: a failing `gsf_input_gio_new` is assumed to set a GError, as the C code dereferences it. The case where it returns NULL without one is not modelled.
- Archive.Read: when `gsf_input_read` returns no data is an oracle (`readDelivers`). Its internal reasons (I/O errors, decompression errors) are not modelled. Nor is libgsf's own rule for a zero-byte read: the model delivers the empty sequence for an empty preview entry when `readDelivers` holds. libgsf is not part of this model; if it returns NULL for zero bytes, that case is `readDelivers == false`, and the job ends with `ready`.
- Cancellation is checked only on entry, as in the C code. Threading, reference counting and memory ownership are not modelled.

=== FILE: archive.dfy ===
/** `fcstd_thumbnailer_create_zip` (fcstd-thumbnailer.c): find the preview
    image a FreeCAD document stores in its ZIP container and decode it.

    The archive is the map libgsf exposes: entry paths, one name per
    directory level, to uncompressed entry content. The preview is looked up
    under three fixed paths in a fixed order. Whether `gsf_input_read`
    delivers data is an oracle; when it does, it delivers the bytes between
    the stream's offset and the offset plus the count asked for. */
module Archive {
  import opened Common
  import opened Loader

  type ZipArchive = map<seq<string>, seq<byte>>

  /** The preview entry paths, in lookup order. */
  const PreviewPaths: seq<seq<string>> :=
    [["Thumbnails", "Thumbnail.png"], ["thumbnails", "Thumbnail.png"], ["Thumbnail.png"]]

  /** The three probes of `fcstd_thumbnailer_create_zip`: the first preview
      path present in the archive, consulting a later one only when every
      earlier one is absent. */
  function FindPreviewEntry(archive: ZipArchive): (r: Option<seq<string>>)
    ensures r.None? <==> forall i :: 0 <= i < |PreviewPaths| ==> PreviewPaths[i] !in archive
    ensures r.Some? ==>
              && r.value in archive
              && exists i :: 0 <= i < |PreviewPaths| && r.value == PreviewPaths[i]
                             && forall j :: 0 <= j < i ==> PreviewPaths[j] !in archive
  {
    if ["Thumbnails", "Thumbnail.png"] in archive then
      assert ["Thumbnails", "Thumbnail.png"] == PreviewPaths[0];
      Some(["Thumbnails", "Thumbnail.png"])
    else if ["thumbnails", "Thumbnail.png"] in archive then
      assert ["thumbnails", "Thumbnail.png"] == PreviewPaths[1];
      Some(["thumbnails", "Thumbnail.png"])
    else if ["Thumbnail.png"] in archive then
      assert ["Thumbnail.png"] == PreviewPaths[2];
      Some(["Thumbnail.png"])
    else
      None
  }

  /** An archive holding the lower-case folder entry and the root entry, but
      not the capitalised folder entry, yields the lower-case folder entry. */
  lemma LowerCaseFolderBeatsRoot(archive: ZipArchive)
    requires ["Thumbnails", "Thumbnail.png"] !in archive
    requires ["thumbnails", "Thumbnail.png"] in archive && ["Thumbnail.png"] in archive
    ensures FindPreviewEntry(archive) == Some(["thumbnails", "Thumbnail.png"])
  {
    var r := FindPreviewEntry(archive).value;
    var i :| 0 <= i < |PreviewPaths| && r == PreviewPaths[i]
             && forall j :: 0 <= j < i ==> PreviewPaths[j] !in archive;
    assert PreviewPaths[1] in archive;
    assert PreviewPaths[0] !in archive;
  }

  /** A libgsf input stream: its content and the current read offset. */
  datatype Input = Input(content: seq<byte>, offset: nat)

  /** `gsf_input_remaining`. */
  function Remaining(input: Input): (n: nat)
    ensures input.offset <= |input.content| ==> input.offset + n == |input.content|
  {
    if input.offset <= |input.content| then |input.content| - input.offset else 0
  }

  /** `gsf_input_read (input, n, NULL)`, with `delivers` saying whether the
      underlying read succeeds. */
  function Read(input: Input, n: nat, delivers: bool): (r: Option<seq<byte>>)
    // data comes back exactly when the read succeeds and the stream holds n more bytes
    ensures r.Some? <==> delivers && input.offset + n <= |input.content|
    // and it is the next n bytes of the stream, in order
    ensures r.Some? ==>
              && |r.value| == n
              && forall i :: 0 <= i < n ==> r.value[i] == input.content[input.offset + i]
  {
    if delivers && input.offset + n <= |input.content| then
      Some(input.content[input.offset..input.offset + n])
    else
      None
  }

  /** The child stream `gsf_infile_child_by_vname` opens for an entry. */
  function OpenEntry(archive: ZipArchive, path: seq<string>): (input: Input)
    requires path in archive
    ensures input.offset == 0 && input.content == archive[path]
  {
    Input(archive[path], 0)
  }

  /** Reading `gsf_input_remaining` bytes of a freshly opened entry yields the
      whole entry in one read. */
  lemma ReadRemainingIsWholeEntry(archive: ZipArchive, path: seq<string>)
    requires path in archive
    ensures var input := OpenEntry(archive, path);
            Read(input, Remaining(input), true) == Some(archive[path])
  {
    var input := OpenEntry(archive, path);
    assert input.content[0..|input.content|] == archive[path];
  }

  /** `fcstd_thumbnailer_create_zip`: decode the preview entry, or produce
      nothing, and no error, when there is no preview entry or its read
      fails. */
  function CreateZip(archive: ZipArchive, readDelivers: bool, box: Dims, decoder: Decoder): (r: LoadResult)
    ensures FindPreviewEntry(archive).None? ==> r == NoImage
    ensures !readDelivers ==> r == NoImage
    // the decoder is fed exactly the preview entry's full content
    ensures FindPreviewEntry(archive).Some? && readDelivers ==>
              r == DecodeScaled(archive[FindPreviewEntry(archive).value], box, decoder)
  {
    match FindPreviewEntry(archive)
    case None => NoImage
    case Some(path) =>
      var input := OpenEntry(archive, path);
      var bytes := Remaining(input);
      ReadRemainingIsWholeEntry(archive, path);
      match Read(input, bytes, readDelivers)
      case None => NoImage
      case Some(data) => DecodeScaled(data, box, decoder)
  }
}

=== FILE: common.dfy ===
/** Values shared by the directory thumbnailer and the FreeCAD document
    thumbnailer: optional values, pixel sizes, errors, decoded images and
    what one thumbnailing job emits and does to the thumbnail cache. */
module Common {

  datatype Option<+T> = None | Some(value: T)

  /** One octet of file or archive content. */
  newtype byte = x: int | 0 <= x < 256

  /** A strictly positive pixel count. */
  type Pos = x: int | x > 0 witness 1

  /** A width and a height in pixels (a flavor's box, or an image's size). */
  datatype Dims = Dims(width: Pos, height: Pos)

  function Max(a: int, b: int): int
  {
    if a >= b then a else b
  }

  /** The codes a job reports with its `error` signal. The two Tumbler codes
      are the ones the thumbnailers set themselves; every other error is
      forwarded with the code its library (GIO, libgsf, gdk-pixbuf, the
      cache writer) gave it. */
  datatype ErrorCode =
    | InvalidFormat
    | NoContent
    | Foreign(code: int)

  /** A GError: a code and a human-readable message. */
  datatype Error = Error(code: ErrorCode, message: string)

  /** The result of a library call that either succeeds or sets a GError. */
  datatype Status = Succeeded | Failed(error: Error)

  datatype Colorspace = Rgb

  /** The part of a decoded GdkPixbuf that is handed to the cache writer
      (pixel rows and their stride are not modelled). */
  datatype Pixbuf = Pixbuf(size: Dims, hasAlpha: bool, bitsPerSample: int, colorspace: Colorspace)

  /** The two signals a thumbnailer emits at the end of a job. */
  datatype Signal =
    | ErrorSignal(uri: string, code: ErrorCode, message: string)
    | Ready(uri: string)

  /** What a job does to the cached thumbnail of its file. */
  datatype Effect =
    | Untouched
    | Deleted
    | SaveRequested(image: Pixbuf, mtime: int)

  /** Everything one job leaves behind: its cache effect and the signal it
      emitted, if any. */
  datatype JobOutcome = JobOutcome(effect: Effect, signal: Option<Signal>)

  /** A job that ends with `error` carrying `e` and leaves the thumbnail alone. */
  function ErrorOutcome(uri: string, e: Error): JobOutcome
  {
    JobOutcome(Untouched, Some(ErrorSignal(uri, e.code, e.message)))
  }

  /** The closing signal of a job: `error` with the pending GError if one is
      set, `ready` otherwise. */
  function Finish(uri: string, pending: Option<Error>): (s: Signal)
    ensures s.uri == uri
    ensures s.Ready? <==> pending.None?
    ensures pending.Some? ==> s.code == pending.value.code && s.message == pending.value.message
  {
    match pending
    case None => Ready(uri)
    case Some(e) => ErrorSignal(uri, e.code, e.message)
  }
}

=== FILE: dir.dfy ===
/** `dir_thumbnailer_create` (dir-thumbnailer.c): one thumbnailing job for a
    directory that carries its own `.thumbnails` cache of numbered images.
    Every library call the job makes is replaced by its result, held in
    `DirEnv`; path tests, directory listings and file contents are functions
    of the path asked about. */
module DirThumbnailer {
  import opened Common
  import opened Filenames
  import opened Selection
  import opened Loader

  /** The job's request and the results of the calls it makes. */
  datatype DirEnv = DirEnv(
    cancelled: bool,                // g_cancellable_is_cancelled on entry
    uri: string,
    mtime: int,                     // tumbler_file_info_get_mtime
    flavor: Dims,                   // the requested flavor's box
    localPath: Option<string>,      // g_file_get_path
    isDir: string -> bool,          // g_file_test (path, G_FILE_TEST_IS_DIR)
    listing: string -> Listing,     // g_dir_open and g_dir_read_name
    files: string -> FileRead,      // g_file_get_contents
    decoder: Decoder,               // the gdk-pixbuf loader
    save: Status)                   // tumbler_thumbnail_save_image_data

  const NoPathMessage := "Failed to get directory path"
  const NotDirectoryMessage := "Not a directory"
  const NoCacheMessage := "Directory does not have .thumbnails subdirectory"
  const NoImageMessage := "No suitable thumbnail image found in .thumbnails directory"

  /** The size the cache scan matches against: the larger side of the box. */
  function RequestedSize(flavor: Dims): (n: Pos)
    ensures n >= flavor.width && n >= flavor.height
    ensures n == flavor.width || n == flavor.height
  {
    Max(flavor.width, flavor.height)
  }

  /** The `.thumbnails` directory of a directory. */
  function CacheDir(dir: string): string
  {
    JoinPath(dir, ".thumbnails")
  }

  /** How far the job gets before decoding: the image file it chose, or the
      error it stopped with and what it did to the thumbnail on the way. */
  datatype Resolution = Chosen(path: string) | Stopped(effect: Effect, error: Error)

  /** Everything `dir_thumbnailer_create` does before `load_image_file`. */
  function Resolve(env: DirEnv): (r: Resolution)
    ensures r.Stopped? ==> !r.effect.SaveRequested?
    // the thumbnail is deleted exactly when the directory has no cache directory
    ensures r.Stopped? && r.effect == Deleted <==>
              env.localPath.Some? && env.isDir(env.localPath.value)
              && !env.isDir(CacheDir(env.localPath.value))
    // a chosen file is the scan's pick for the larger side of the box
    // a local directory whose cache opens and holds a qualifying name always
    // gets as far as a chosen file
    ensures env.localPath.Some? && env.isDir(env.localPath.value)
            && env.isDir(CacheDir(env.localPath.value))
            && FindBestThumbnailImage(CacheDir(env.localPath.value), env.listing(CacheDir(env.localPath.value)),
                                      RequestedSize(env.flavor)).Some? ==>
              r.Chosen?
    ensures r.Chosen? ==>
              && env.localPath.Some?
              && var cache := CacheDir(env.localPath.value);
              && env.isDir(cache)
              && Some(r.path) == FindBestThumbnailImage(cache, env.listing(cache), RequestedSize(env.flavor))
  {
    match env.localPath
    case None => Stopped(Untouched, Error(InvalidFormat, NoPathMessage))
    case Some(dir) =>
      if !env.isDir(dir) then
        Stopped(Untouched, Error(InvalidFormat, NotDirectoryMessage))
      else
        var cache := CacheDir(dir);
        if !env.isDir(cache) then
          Stopped(Deleted, Error(NoContent, NoCacheMessage))
        else
          match FindBestThumbnailImage(cache, env.listing(cache), RequestedSize(env.flavor))
          case None => Stopped(Untouched, Error(NoContent, NoImageMessage))
          case Some(path) => Chosen(path)
  }

  function Create(env: DirEnv): (r: JobOutcome)
    // silent exactly when cancelled on entry; otherwise one signal for the job's directory
    ensures r.signal.None? <==> env.cancelled
    ensures r.signal.Some? ==> r.signal.value.uri == env.uri
    // what is saved is a decoded cache image that fits the flavor, stamped with the mtime
    ensures r.effect.SaveRequested? ==>
              && r.effect.mtime == env.mtime
              && r.effect.image.size.width <= env.flavor.width
              && r.effect.image.size.height <= env.flavor.height
    // a save is followed by `ready` exactly when it succeeds
    ensures r.effect.SaveRequested? ==> r.signal.Some? && (r.signal.value.Ready? <==> env.save.Succeeded?)
    // and a failed save is reported with the save's own code and message
    ensures r.effect.SaveRequested? && env.save.Failed? ==>
              r.signal == Some(ErrorSignal(env.uri, env.save.error.code, env.save.error.message))
    // a deleted thumbnail goes with a NO_CONTENT error
    ensures r.effect == Deleted ==> r.signal == Some(ErrorSignal(env.uri, NoContent, NoCacheMessage))
  {
    if env.cancelled then
      JobOutcome(Untouched, None)
    else
      match Resolve(env)
      case Stopped(effect, e) => JobOutcome(effect, Some(Finish(env.uri, Some(e))))
      case Chosen(path) =>
        match LoadImageFile(path, env.files, env.flavor, env.decoder)
        case Loaded(pixbuf) =>
          var pending := if env.save.Failed? then Some(env.save.error) else None;
          JobOutcome(SaveRequested(pixbuf, env.mtime), Some(Finish(env.uri, pending)))
        case LoadFailed(e) => ErrorOutcome(env.uri, e)
        case NoImage => JobOutcome(Untouched, Some(Ready(env.uri)))
  }

  /** A path that is not a local directory is an INVALID_FORMAT error and
      leaves the thumbnail alone. */
  lemma NotADirectoryReported(env: DirEnv)
    requires !env.cancelled
    requires env.localPath.None? || !env.isDir(env.localPath.value)
    ensures Create(env).effect == Untouched
    ensures Create(env).signal.value.ErrorSignal? && Create(env).signal.value.code == InvalidFormat
  {
  }

  /** A directory without `.thumbnails` loses its cached thumbnail and gets a
      NO_CONTENT error. */
  lemma MissingCacheDeletes(env: DirEnv)
    requires !env.cancelled && env.localPath.Some? && env.isDir(env.localPath.value)
    requires !env.isDir(CacheDir(env.localPath.value))
    ensures Create(env) == JobOutcome(Deleted, Some(ErrorSignal(env.uri, NoContent, NoCacheMessage)))
  {
  }

  /** A cache directory that cannot be listed, or holds no numbered image,
      is a NO_CONTENT error and leaves the thumbnail alone. */
  lemma NoCandidateReported(env: DirEnv)
    requires !env.cancelled && env.localPath.Some? && env.isDir(env.localPath.value)
    requires var cache := CacheDir(env.localPath.value);
             && env.isDir(cache)
             && (env.listing(cache).Unopenable?
                 || forall i :: 0 <= i < |env.listing(cache).names| ==> SizeOf(env.listing(cache).names[i]).None?)
    ensures Create(env) == JobOutcome(Untouched, Some(ErrorSignal(env.uri, NoContent, NoImageMessage)))
  {
  }

  /** Nothing is saved unless the chosen file was read and decoded
      completely, and an image that fails to load leaves the thumbnail
      alone. */
  lemma SaveOnlyAfterDecode(env: DirEnv)
    ensures Create(env).effect.SaveRequested? ==>
              && Resolve(env).Chosen?
              && var path := Resolve(env).path;
              && env.files(path).Contents?
              && var run := env.decoder(env.files(path).data);
              run.write.Succeeded? && run.close.Succeeded? && run.image.Some?
  {
  }

  /** A local directory whose cache opens and lists at least one numbered
      image always reaches the decode, whatever the listing's length or
      order. */
  lemma QualifyingImageChosen(env: DirEnv)
    ensures env.localPath.Some? && env.isDir(env.localPath.value)
            && env.isDir(CacheDir(env.localPath.value))
            && env.listing(CacheDir(env.localPath.value)).Entries?
            && (exists i :: 0 <= i < |env.listing(CacheDir(env.localPath.value)).names|
                            && SizeOf(env.listing(CacheDir(env.localPath.value)).names[i]).Some?) ==>
              Resolve(env).Chosen?
  {
  }

  /** A chosen image that reads and decodes is saved at the size
      `SizePrepared` picks for the flavor, stamped with the directory's mtime,
      and the job ends with `ready` or with the save's own error. */
  lemma DecodedImageSaved(env: DirEnv)
    ensures !env.cancelled && Resolve(env).Chosen? && env.files(Resolve(env).path).Contents? ==>
              var run := env.decoder(env.files(Resolve(env).path).data);
              run.write.Succeeded? && run.close.Succeeded? && run.image.Some? ==>
                Create(env) ==
                  JobOutcome(SaveRequested(ScaledPixbuf(run.image.value, env.flavor), env.mtime),
                             Some(Finish(env.uri, if env.save.Failed? then Some(env.save.error) else None)))
  {
  }

  /** A chosen image that cannot be read, or whose loader write or close
      fails, ends the job with that GError and leaves the thumbnail alone. */
  lemma LoadFailureReported(env: DirEnv)
    ensures !env.cancelled && Resolve(env).Chosen? ==>
              var file := env.files(Resolve(env).path);
              && (file.Unreadable? ==> Create(env) == ErrorOutcome(env.uri, file.error))
              && (file.Contents? && env.decoder(file.data).write.Failed? ==>
                    Create(env) == ErrorOutcome(env.uri, env.decoder(file.data).write.error))
              && (file.Contents? && env.decoder(file.data).write.Succeeded? && env.decoder(file.data).close.Failed? ==>
                    Create(env) == ErrorOutcome(env.uri, env.decoder(file.data).close.error))
  {
  }

  /** A chosen image whose loader accepts it without producing a pixbuf
      gives `ready` and no thumbnail. */
  lemma ImagelessDecodeIsReady(env: DirEnv)
    ensures !env.cancelled && Resolve(env).Chosen? ==>
              var file := env.files(Resolve(env).path);
              file.Contents? && env.decoder(file.data).write.Succeeded?
              && env.decoder(file.data).close.Succeeded? && env.decoder(file.data).image.None? ==>
                Create(env) == JobOutcome(Untouched, Some(Ready(env.uri)))
  {
  }

  /** A directory whose cache holds `128.png` and `256.png` (in either
      order), requested for a 200x200 flavor, chooses `256.png`; for a
      100x100 flavor it chooses `128.png`. */
  lemma CacheScenario(env: DirEnv, names: seq<string>)
    requires !env.cancelled && env.localPath.Some? && env.isDir(env.localPath.value)
    requires var cache := CacheDir(env.localPath.value);
             env.isDir(cache) && env.listing(cache) == Entries(names)
    requires names == ["128.png", "256.png"] || names == ["256.png", "128.png"]
    ensures env.flavor == Dims(200, 200) ==>
              Resolve(env) == Chosen(JoinPath(CacheDir(env.localPath.value), "256.png"))
    ensures env.flavor == Dims(100, 100) ==>
              Resolve(env) == Chosen(JoinPath(CacheDir(env.localPath.value), "128.png"))
  {
    OversizedBeatsUndersized();
    ScenarioSizes();
    ScanTwo("128.png", "256.png", 100);
    ScanTwo("256.png", "128.png", 100);
  }
}

=== FILE: fcstd.dfy ===
/** `fcstd_thumbnailer_create` (fcstd-thumbnailer.c): one thumbnailing job
    for a FreeCAD document. Every library call the job makes is replaced by
    its result, held in `FcstdEnv`; the job is the mapping from those results
    to what it does to the cached thumbnail and which signal it emits. */
module FcstdThumbnailer {
  import opened Common
  import opened Scaling
  import opened Loader
  import opened Archive

  /** What `gsf_infile_zip_new` yields: the archive, or a failure that may or
      may not have set a GError. */
  datatype ZipOpen = Opened(archive: ZipArchive) | NotZip(error: Option<Error>)

  /** The job's request and the results of the calls it makes. */
  datatype FcstdEnv = FcstdEnv(
    cancelled: bool,       // g_cancellable_is_cancelled on entry
    uri: string,
    mtime: int,            // tumbler_file_info_get_mtime
    flavor: Dims,          // the requested flavor's box
    input: Status,         // gsf_input_gio_new
    zip: ZipOpen,          // gsf_infile_zip_new
    readDelivers: bool,    // gsf_input_read on the preview entry
    decoder: Decoder,      // the gdk-pixbuf loader
    save: Status)          // tumbler_thumbnail_save_image_data

  const ZipFailureMessage := "Failed to open as ZIP archive"

  /** The pixbuf and pending error once the archive step is over. */
  function Extract(env: FcstdEnv): (r: LoadResult)
    ensures env.zip.NotZip? && env.zip.error.None? ==> r == LoadFailed(Error(NoContent, ZipFailureMessage))
    ensures env.zip.NotZip? && env.zip.error.Some? ==> r == LoadFailed(env.zip.error.value)
    ensures env.zip.Opened? ==> r == CreateZip(env.zip.archive, env.readDelivers, env.flavor, env.decoder)
  {
    match env.zip
    case Opened(archive) => CreateZip(archive, env.readDelivers, env.flavor, env.decoder)
    case NotZip(Some(e)) => LoadFailed(e)
    case NotZip(None) => LoadFailed(Error(NoContent, ZipFailureMessage))
  }

  function Create(env: FcstdEnv): (r: JobOutcome)
    // silent exactly when cancelled on entry; otherwise one signal for the job's file
    ensures r.signal.None? <==> env.cancelled
    ensures r.signal.Some? ==> r.signal.value.uri == env.uri
    // the job never deletes a cached thumbnail
    ensures r.effect != Deleted
    // what is saved is a decoded preview that fits the flavor, stamped with the file's mtime
    ensures r.effect.SaveRequested? ==>
              && r.effect.mtime == env.mtime
              && r.effect.image.size.width <= env.flavor.width
              && r.effect.image.size.height <= env.flavor.height
    // a save is followed by `ready` exactly when it succeeds
    ensures r.effect.SaveRequested? ==> r.signal.Some? && (r.signal.value.Ready? <==> env.save.Succeeded?)
    // and a failed save is reported with the save's own code and message
    ensures r.effect.SaveRequested? && env.save.Failed? ==>
              r.signal == Some(ErrorSignal(env.uri, env.save.error.code, env.save.error.message))
  {
    if env.cancelled then
      JobOutcome(Untouched, None)
    else
      match env.input
      case Failed(e) => ErrorOutcome(env.uri, e)
      case Succeeded =>
        match Extract(env)
        case Loaded(pixbuf) =>
          var pending := if env.save.Failed? then Some(env.save.error) else None;
          JobOutcome(SaveRequested(pixbuf, env.mtime), Some(Finish(env.uri, pending)))
        case LoadFailed(e) => ErrorOutcome(env.uri, e)
        case NoImage => JobOutcome(Untouched, Some(Ready(env.uri)))
  }

  /** An input stream that cannot be opened ends the job with exactly that
      error, before the thumbnail is touched. */
  lemma InputFailureReported(env: FcstdEnv)
    requires !env.cancelled && env.input.Failed?
    ensures Create(env) ==
              JobOutcome(Untouched, Some(ErrorSignal(env.uri, env.input.error.code, env.input.error.message)))
  {
  }

  /** A ZIP open that fails without a library error is reported as
      NO_CONTENT; one with a library error forwards that error. */
  lemma ZipFailureReported(env: FcstdEnv)
    requires !env.cancelled && env.input.Succeeded? && env.zip.NotZip?
    ensures Create(env).effect == Untouched
    ensures env.zip.error.None? ==>
              Create(env).signal == Some(ErrorSignal(env.uri, NoContent, ZipFailureMessage))
    ensures env.zip.error.Some? ==>
              Create(env).signal == Some(ErrorSignal(env.uri, env.zip.error.value.code, env.zip.error.value.message))
  {
  }

  /** A document without any preview entry gets `ready` and no thumbnail. */
  lemma MissingPreviewIsReady(env: FcstdEnv)
    requires !env.cancelled && env.input.Succeeded? && env.zip.Opened?
    requires forall i :: 0 <= i < |PreviewPaths| ==> PreviewPaths[i] !in env.zip.archive
    ensures Create(env) == JobOutcome(Untouched, Some(Ready(env.uri)))
  {
  }

  /** A preview that decodes is saved at the size `SizePrepared` picks for
      its natural size and the flavor. */
  lemma DecodedPreviewSaved(env: FcstdEnv)
    requires !env.cancelled && env.input.Succeeded? && env.zip.Opened? && env.readDelivers
    requires FindPreviewEntry(env.zip.archive).Some?
    ensures var run := env.decoder(env.zip.archive[FindPreviewEntry(env.zip.archive).value]);
            run.write.Succeeded? && run.close.Succeeded? && run.image.Some? ==>
              Create(env).effect == SaveRequested(ScaledPixbuf(run.image.value, env.flavor), env.mtime)
  {
  }

  /** Nothing is saved unless the preview was read and decoded completely. */
  lemma SaveOnlyAfterDecode(env: FcstdEnv)
    requires Create(env).effect.SaveRequested?
    ensures env.input.Succeeded? && env.zip.Opened? && env.readDelivers
    ensures FindPreviewEntry(env.zip.archive).Some?
    ensures var run := env.decoder(env.zip.archive[FindPreviewEntry(env.zip.archive).value]);
            run.write.Succeeded? && run.close.Succeeded? && run.image.Some?
  {
  }

  /** A preview whose loader write or close fails ends the job with that
      GError and leaves the thumbnail alone. */
  lemma LoadFailureReported(env: FcstdEnv)
    ensures !env.cancelled && env.input.Succeeded? && env.zip.Opened? && env.readDelivers
            && FindPreviewEntry(env.zip.archive).Some? ==>
              var run := env.decoder(env.zip.archive[FindPreviewEntry(env.zip.archive).value]);
              && (run.write.Failed? ==> Create(env) == ErrorOutcome(env.uri, run.write.error))
              && (run.write.Succeeded? && run.close.Failed? ==> Create(env) == ErrorOutcome(env.uri, run.close.error))
  {
  }

  /** A preview entry whose read delivers nothing, or whose loader accepts
      it without producing a pixbuf, gives `ready` and no thumbnail. */
  lemma ImagelessDecodeIsReady(env: FcstdEnv)
    ensures !env.cancelled && env.input.Succeeded? && env.zip.Opened?
            && FindPreviewEntry(env.zip.archive).Some? ==>
              var run := env.decoder(env.zip.archive[FindPreviewEntry(env.zip.archive).value]);
              (!env.readDelivers || (run.write.Succeeded? && run.close.Succeeded? && run.image.None?)) ==>
                Create(env) == JobOutcome(Untouched, Some(Ready(env.uri)))
  {
  }

  /** A 512x512 preview stored at the archive root, requested for a 128x128
      flavor, is saved at 128x128 and the job reports `ready`. */
  lemma RootPreviewScenario(png: seq<byte>, image: SourceImage)
    requires image.size == Dims(512, 512)
    ensures var env := FcstdEnv(false, "file:///part.FCStd", 0, Dims(128, 128), Succeeded,
                                Opened(map[["Thumbnail.png"] := png]), true,
                                (data: seq<byte>) => LoaderRun(Succeeded, Succeeded, Some(image)),
                                Succeeded);
            && Create(env).effect.SaveRequested?
            && Create(env).effect.image.size == Dims(128, 128)
            && Create(env).signal == Some(Ready(env.uri))
  {
    var archive := map[["Thumbnail.png"] := png];
    assert ["Thumbnails", "Thumbnail.png"] !in archive;
    assert ["thumbnails", "Thumbnail.png"] !in archive;
    assert FindPreviewEntry(archive) == Some(["Thumbnail.png"]);
    assert RoundHalfEven(512 * 128, 512) == 128;
  }
}

=== FILE: filenames.dfy ===
/** Which names in a `.thumbnails` directory are cached images, and the size
    each one advertises (dir-thumbnailer.c, the body of the scan loop of
    `find_best_thumbnail_image`).

    A name qualifies when the text after its LAST dot is one of png, jpg,
    jpeg, svg or svgz in any ASCII letter case, and the text before that dot
    is consumed entirely by a base-10 `strtol` whose value is positive.
    `strtol` skips leading C-locale white space and takes one optional sign
    before the digits; overflow saturation and the narrowing of the value to
    a 32-bit `gint` are not modelled. */
module Filenames {
  import opened Common

  /** `g_ascii_tolower`: only the letters A-Z change. */
  function AsciiLower(c: char): char
  {
    if 'A' <= c <= 'Z' then (c as int + 32) as char else c
  }

  /** `s` with every ASCII letter folded to lower case, so that
      `g_ascii_strcasecmp (a, b) == 0` is `AsciiDown (a) == AsciiDown (b)`. */
  function AsciiDown(s: string): (r: string)
    ensures |r| == |s| && forall i :: 0 <= i < |s| ==> r[i] == AsciiLower(s[i])
  {
    if |s| == 0 then []
    else AsciiDown(s[..|s| - 1]) + [AsciiLower(s[|s| - 1])]
  }

  /** The extensions the scan accepts. They are written in lower case, so
      comparing without regard to ASCII case is comparing the folded text. */
  const ImageExtensions: set<string> := {"png", "jpg", "jpeg", "svg", "svgz"}

  predicate IsImageExtension(ext: string)
  {
    AsciiDown(ext) in ImageExtensions
  }

  /** `strrchr (s, c)`: the position of the last `c` in `s`, if any. */
  function LastIndexOf(s: string, c: char): (r: Option<nat>)
    ensures r.Some? ==> r.value < |s| && s[r.value] == c
    ensures r.Some? ==> forall j :: r.value < j < |s| ==> s[j] != c
    ensures r.None? ==> forall j :: 0 <= j < |s| ==> s[j] != c
  {
    if |s| == 0 then None
    else if s[|s| - 1] == c then Some(|s| - 1)
    else LastIndexOf(s[..|s| - 1], c)
  }

  /** C-locale `isspace`: space, tab, newline, vertical tab, form feed and
      carriage return. */
  predicate IsSpace(c: char)
  {
    c == ' ' || 9 <= c as int <= 13
  }

  predicate IsDigit(c: char)
  {
    '0' <= c <= '9'
  }

  predicate AllDigits(s: string)
  {
    forall i :: 0 <= i < |s| ==> IsDigit(s[i])
  }

  predicate AllSpaces(s: string)
  {
    forall i :: 0 <= i < |s| ==> IsSpace(s[i])
  }

  /** The number a string of decimal digits spells. */
  function DecimalValue(s: string): nat
    requires AllDigits(s)
  {
    if |s| == 0 then 0
    else DecimalValue(s[..|s| - 1]) * 10 + (s[|s| - 1] as int - '0' as int)
  }

  /** How many white-space characters `strtol` skips at the front of `s`. */
  function LeadingSpaces(s: string): (k: nat)
    ensures k <= |s|
    ensures forall i :: 0 <= i < k ==> IsSpace(s[i])
    ensures k < |s| ==> !IsSpace(s[k])
  {
    if |s| == 0 || !IsSpace(s[0]) then 0
    else 1 + LeadingSpaces(s[1..])
  }

  /** The value `strtol (s, &end, 10)` returns when it leaves `end` on the
      terminating NUL of `s`, or None when part of `s` is left unconverted.
      When no digits are found `end` stays at the start of `s`, which is the
      terminator only for the empty string, whose value is 0. */
  function WholeDecimal(s: string): Option<int>
  {
    if |s| == 0 then Some(0)
    else
      var k := LeadingSpaces(s);
      var signed := k < |s| && (s[k] == '+' || s[k] == '-');
      var start := if signed then k + 1 else k;
      var digits := s[start..];
      if |digits| > 0 && AllDigits(digits) then
        var value: int := if signed && s[k] == '-' then -(DecimalValue(digits) as int) else DecimalValue(digits);
        Some(value)
      else
        None
  }

  /** The size a cached-image name advertises, or None when the scan skips
      the name. */
  function SizeOf(name: string): Option<Pos>
  {
    match LastIndexOf(name, '.')
    case None => None
    case Some(d) =>
      if !IsImageExtension(name[d + 1..]) then None
      else
        match WholeDecimal(name[..d])
        case Some(v) => if v > 0 then Some(v) else None
        case None => None
  }

  /** The parts of a qualifying name: white space, an optional `+`, decimal
      digits with a positive value, a dot and an image extension. */
  predicate NumberedName(spaces: string, plus: bool, digits: string, ext: string)
  {
    && AllSpaces(spaces)
    && |digits| > 0
    && AllDigits(digits)
    && DecimalValue(digits) > 0
    && IsImageExtension(ext)
  }

  function Compose(spaces: string, plus: bool, digits: string, ext: string): string
  {
    spaces + (if plus then "+" else "") + digits + "." + ext
  }

  function SignLength(plus: bool): nat
  {
    if plus then 1 else 0
  }

  /** An image extension is made of letters, so it holds no dot. */
  lemma ImageExtensionHasNoDot(ext: string)
    requires IsImageExtension(ext)
    ensures forall i :: 0 <= i < |ext| ==> ext[i] != '.'
  {
    forall i | 0 <= i < |ext|
      ensures ext[i] != '.'
    {
      assert 'a' <= AsciiDown(ext)[i] <= 'z';
    }
  }

  /** The only dot of a composed name is the one before its extension. */
  lemma ComposeDot(spaces: string, plus: bool, digits: string, ext: string)
    requires NumberedName(spaces, plus, digits, ext)
    ensures var name := Compose(spaces, plus, digits, ext);
            var d := |spaces| + SignLength(plus) + |digits|;
            && d < |name| && name[d] == '.'
            && name[..d] == spaces + (if plus then "+" else "") + digits
            && name[d + 1..] == ext
            && forall i :: 0 <= i < |name| && name[i] == '.' ==> i == d
  {
    var stem := spaces + (if plus then "+" else "") + digits;
    assert Compose(spaces, plus, digits, ext) == stem + "." + ext;
    ImageExtensionHasNoDot(ext);
    StemHasNoDot(spaces, plus, digits);
    SingleDot(stem, ext);
  }

  /** White space, a sign and digits hold no dot. */
  lemma StemHasNoDot(spaces: string, plus: bool, digits: string)
    requires AllSpaces(spaces) && AllDigits(digits)
    ensures var stem := spaces + (if plus then "+" else "") + digits;
            && |stem| == |spaces| + SignLength(plus) + |digits|
            && forall i :: 0 <= i < |stem| ==> stem[i] != '.'
  {
    var sign := if plus then "+" else "";
    var stem := spaces + sign + digits;
    forall i | 0 <= i < |stem|
      ensures stem[i] != '.'
    {
      if i < |spaces| {
        assert stem[i] == spaces[i];
      } else if i < |spaces| + |sign| {
        assert stem[i] == '+';
      } else {
        assert stem[i] == digits[i - |spaces| - |sign|];
      }
    }
  }

  /** Joining two dot-free texts with a dot leaves that dot the only one. */
  lemma SingleDot(stem: string, ext: string)
    requires forall i :: 0 <= i < |stem| ==> stem[i] != '.'
    requires forall i :: 0 <= i < |ext| ==> ext[i] != '.'
    ensures var name := stem + "." + ext;
            && name[|stem|] == '.'
            && name[..|stem|] == stem
            && name[|stem| + 1..] == ext
            && forall i :: 0 <= i < |name| && name[i] == '.' ==> i == |stem|
  {
    var name := stem + "." + ext;
    forall i | 0 <= i < |name| && i != |stem|
      ensures name[i] != '.'
    {
      if i < |stem| {
        assert name[i] == stem[i];
      } else {
        assert name[i] == ext[i - |stem| - 1];
      }
    }
  }

  /** Every name of the form white space, optional `+`, positive decimal,
      dot, image extension qualifies, with the decimal's value as its size. */
  lemma SizeOfNumberedName(spaces: string, plus: bool, digits: string, ext: string)
    requires NumberedName(spaces, plus, digits, ext)
    ensures SizeOf(Compose(spaces, plus, digits, ext)) == Some(DecimalValue(digits))
  {
    var name := Compose(spaces, plus, digits, ext);
    var d := |spaces| + SignLength(plus) + |digits|;
    ComposeDot(spaces, plus, digits, ext);
    assert LastIndexOf(name, '.') == Some(d);
    WholeDecimalOfParts(spaces, plus, digits);
  }

  /** `strtol` reads white space, an optional `+` and digits as the digits'
      value, consuming all of it. */
  lemma WholeDecimalOfParts(spaces: string, plus: bool, digits: string)
    requires AllSpaces(spaces) && |digits| > 0 && AllDigits(digits)
    ensures WholeDecimal(spaces + (if plus then "+" else "") + digits) == Some(DecimalValue(digits) as int)
  {
    var stem := spaces + (if plus then "+" else "") + digits;
    var k := LeadingSpaces(stem);
    assert forall i :: 0 <= i < |spaces| ==> stem[i] == spaces[i];
    assert stem[|spaces|] == if plus then '+' else digits[0];
    assert k == |spaces|;
    if plus {
      assert stem[k + 1..] == digits;
    } else {
      assert stem[k..] == digits;
    }
  }

  /** Only names of that form qualify: a qualifying name splits into white
      space, an optional `+`, a positive decimal, a dot and an image
      extension. */
  lemma SizeOfOnlyNumberedNames(name: string) returns (spaces: string, plus: bool, digits: string, ext: string)
    requires SizeOf(name).Some?
    ensures NumberedName(spaces, plus, digits, ext)
    ensures name == Compose(spaces, plus, digits, ext)
    ensures SizeOf(name) == Some(DecimalValue(digits))
  {
    var d := LastIndexOf(name, '.').value;
    ext := name[d + 1..];
    var stem := name[..d];
    assert IsImageExtension(ext);
    assert WholeDecimal(stem).Some? && WholeDecimal(stem).value > 0;
    spaces, plus, digits := PositiveDecimalParts(stem);
    assert name == stem + "." + ext by {
      assert name == name[..d] + [name[d]] + name[d + 1..];
    }
  }

  /** A text `strtol` consumes entirely with a positive value is white
      space, an optional `+` and the digits of that value. */
  lemma PositiveDecimalParts(stem: string) returns (spaces: string, plus: bool, digits: string)
    requires WholeDecimal(stem).Some? && WholeDecimal(stem).value > 0
    ensures AllSpaces(spaces) && |digits| > 0 && AllDigits(digits)
    ensures DecimalValue(digits) == WholeDecimal(stem).value
    ensures stem == spaces + (if plus then "+" else "") + digits
  {
    var k := LeadingSpaces(stem);
    var signed := k < |stem| && (stem[k] == '+' || stem[k] == '-');
    var start := if signed then k + 1 else k;
    digits := stem[start..];
    spaces := stem[..k];
    plus := signed;
    if signed {
      assert stem[k] == '+';
      assert stem == spaces + "+" + digits;
    } else {
      assert stem == spaces + digits;
    }
  }

  /** The names the scan skips although they may carry an image extension:
      no dot at all, nothing before the dot, or a stem such as `1.2` that
      itself holds a dot. */
  lemma RejectedNames(name: string, stem: string, ext: string)
    ensures (forall i :: 0 <= i < |name| ==> name[i] != '.') ==> SizeOf(name).None?
    ensures SizeOf("." + ext).None?
    ensures '.' in stem ==> SizeOf(stem + "." + ext).None?
  {
    if SizeOf("." + ext).Some? {
      var sp, pl, dg, ex := SizeOfOnlyNumberedNames("." + ext);
      ComposeDot(sp, pl, dg, ex);
      assert false;
    }
    var dotted := stem + "." + ext;
    if '.' in stem && SizeOf(dotted).Some? {
      var p :| 0 <= p < |stem| && stem[p] == '.';
      assert dotted[p] == '.' && dotted[|stem|] == '.';
      var sp, pl, dg, ex := SizeOfOnlyNumberedNames(dotted);
      ComposeDot(sp, pl, dg, ex);
      assert false;
    }
  }
}

=== FILE: loader.dfy ===
/** The decoding step both thumbnailers share: feed a whole buffer to a
    gdk-pixbuf loader whose size-prepared handler is `SizePrepared`, then
    close it, and keep the image only if both calls succeeded
    (`load_image_file` in dir-thumbnailer.c, `fcstd_thumbnailer_create_from_data`
    in fcstd-thumbnailer.c; the two bodies are the same).

    The codec is an oracle: for a given buffer it says whether `write` and
    `close` succeed and which image, if any, it recognised. The C functions
    return a pixbuf and set a GError; `LoadResult` names the three pairs that
    can occur. */
module Loader {
  import opened Common
  import opened Scaling

  /** The natural size and format of the image a codec recognised. */
  datatype SourceImage = SourceImage(size: Dims, hasAlpha: bool, bitsPerSample: int, colorspace: Colorspace)

  /** How a gdk-pixbuf loader behaves on one buffer: the result of
      `gdk_pixbuf_loader_write`, the result of the `gdk_pixbuf_loader_close`
      that follows it, and the image the loader holds afterwards, if any. */
  datatype LoaderRun = LoaderRun(write: Status, close: Status, image: Option<SourceImage>)

  /** The codec oracle: its behaviour on each possible buffer. */
  type Decoder = seq<byte> -> LoaderRun

  /** A pixbuf and no error, no pixbuf and an error, or neither. */
  datatype LoadResult = Loaded(pixbuf: Pixbuf) | LoadFailed(error: Error) | NoImage

  /** What `g_file_get_contents` yields for a path. */
  datatype FileRead = Contents(data: seq<byte>) | Unreadable(error: Error)

  /** The pixbuf the loader produces from `image` once its size-prepared
      handler has asked for the size `SizePrepared` picks for `box`. */
  function ScaledPixbuf(image: SourceImage, box: Dims): (p: Pixbuf)
    ensures p.size.width <= box.width && p.size.height <= box.height
    ensures p.size.width <= image.size.width && p.size.height <= image.size.height
    ensures Fits(image.size, box) ==> p.size == image.size
    // an image that does not fit gets the box bound on the axis with the
    // larger ratio and the rounded proportional size on the other
    ensures !Fits(image.size, box) && HeightBound(image.size, box) ==>
              p.size.height == box.height
              && ScaledAxis(p.size.width, image.size.width * box.height, image.size.height)
    ensures !Fits(image.size, box) && !HeightBound(image.size, box) ==>
              p.size.width == box.width
              && ScaledAxis(p.size.height, image.size.height * box.width, image.size.width)
    ensures p.size == SizePrepared(image.size, box)
    ensures p.hasAlpha == image.hasAlpha && p.bitsPerSample == image.bitsPerSample
    ensures p.colorspace == image.colorspace
  {
    Pixbuf(SizePrepared(image.size, box), image.hasAlpha, image.bitsPerSample, image.colorspace)
  }

  /** Decode `data` in one `write`, scaled into `box`. */
  function DecodeScaled(data: seq<byte>, box: Dims, decoder: Decoder): (r: LoadResult)
    // an image comes back only when both write and close succeed
    ensures r.Loaded? <==>
              decoder(data).write.Succeeded? && decoder(data).close.Succeeded? && decoder(data).image.Some?
    // a failed write reports its own error, whatever closing then does
    ensures decoder(data).write.Failed? ==> r == LoadFailed(decoder(data).write.error)
    // a failed close after a good write reports the close error
    ensures decoder(data).write.Succeeded? && decoder(data).close.Failed? ==>
              r == LoadFailed(decoder(data).close.error)
    // both calls succeeding without an image is no pixbuf and no error
    ensures decoder(data).write.Succeeded? && decoder(data).close.Succeeded? && decoder(data).image.None? ==>
              r == NoImage
    ensures r.Loaded? ==> r.pixbuf == ScaledPixbuf(decoder(data).image.value, box)
  {
    var run := decoder(data);
    match run.write
    case Failed(e) => LoadFailed(e)
    case Succeeded =>
      match run.close
      case Failed(e) => LoadFailed(e)
      case Succeeded =>
        match run.image
        case Some(image) => Loaded(ScaledPixbuf(image, box))
        case None => NoImage
  }

  /** `load_image_file`: read the whole file, then decode it. */
  function LoadImageFile(path: string, files: string -> FileRead, box: Dims, decoder: Decoder): (r: LoadResult)
    ensures files(path).Unreadable? ==> r == LoadFailed(files(path).error)
    ensures files(path).Contents? ==> r == DecodeScaled(files(path).data, box, decoder)
    ensures r.Loaded? ==> r.pixbuf.size.width <= box.width && r.pixbuf.size.height <= box.height
  {
    match files(path)
    case Unreadable(e) => LoadFailed(e)
    case Contents(data) => DecodeScaled(data, box, decoder)
  }
}

=== FILE: scaling.dfy ===
/** The size-prepared rule both thumbnailers register on their gdk-pixbuf
    loader: given the natural size of the image being decoded and the box of
    the requested thumbnail flavor, choose the size the loader decodes to.

    The source divides in double precision and rounds with `rint`; here the
    ratios are compared by cross-multiplication and `rint` is the exact
    rational quotient rounded to the nearest integer, ties to even (the
    default IEEE rounding mode). */
module Scaling {
  import opened Common

  /** `r` is an integer nearest to n/d, and the even one when n/d lies
      exactly halfway between two integers. */
  predicate NearestEven(r: int, n: int, d: int)
    requires d > 0
  {
    && -d <= 2 * (r * d - n) <= d
    && ((2 * (r * d - n) == d || 2 * (r * d - n) == -d) ==> r % 2 == 0)
  }

  /** `rint(n / d)` for a non-negative quotient. */
  function RoundHalfEven(n: nat, d: Pos): (r: nat)
    ensures NearestEven(r, n, d)
  {
    var q := n / d;
    var m := n % d;
    assert n == q * d + m;
    assert (q + 1) * d == q * d + d;
    if 2 * m < d then q
    else if 2 * m > d then q + 1
    else if q % 2 == 0 then q
    else q + 1
  }

  /** There is exactly one nearest-even integer, so `RoundHalfEven` is the
      only rounding that meets its contract. */
  lemma NearestEvenUnique(r1: int, r2: int, n: int, d: int)
    requires d > 0
    requires NearestEven(r1, n, d) && NearestEven(r2, n, d)
    ensures r1 == r2
  {
    if r1 < r2 {
      NearestEvenUniqueOrdered(r1, r2, n, d);
    } else if r2 < r1 {
      NearestEvenUniqueOrdered(r2, r1, n, d);
    }
  }

  lemma NearestEvenUniqueOrdered(lo: int, hi: int, n: int, d: int)
    requires d > 0 && lo <= hi
    requires NearestEven(lo, n, d) && NearestEven(hi, n, d)
    ensures lo == hi
  {
    var k := hi - lo;
    var a, b := hi * d - n, lo * d - n;
    assert a - b == k * d by {
      assert hi * d - lo * d == (hi - lo) * d;
    }
    // two nearest integers are at most one apart, and a gap of one means
    // both are ties, which cannot both be even
    MulAtLeast(k, 1, d);
    MulAtLeast(k, 2, d);
  }

  /** Monotonicity of multiplication by a positive factor, the one piece of
      non-linear arithmetic the bounds below need. */
  lemma MulAtLeast(a: int, b: int, d: int)
    requires d > 0
    ensures a >= b <==> a * d >= b * d
  {
    if a >= b {
      assert a * d - b * d == (a - b) * d;
    } else {
      assert b * d - a * d == (b - a) * d;
    }
  }

  /** The source fits the box, so it is decoded at its natural size. */
  predicate Fits(source: Dims, box: Dims)
  {
    source.width <= box.width && source.height <= box.height
  }

  /** `hratio > wratio`, i.e. sh/dh > sw/dw, compared exactly. */
  predicate HeightBound(source: Dims, box: Dims)
  {
    source.height * box.width > source.width * box.height
  }

  /** `v` is n/d rounded to nearest-even, raised to 1 when that rounds to 0
      (the final `MAX (dest, 1)`). */
  predicate ScaledAxis(v: int, n: int, d: int)
    requires d > 0
  {
    NearestEven(v, n, d) || (v == 1 && NearestEven(0, n, d))
  }

  function AtLeastOne(x: int): Pos
  {
    if x >= 1 then x else 1
  }

  /** The size handed to `gdk_pixbuf_loader_set_size` for a source image of
      natural size `source` and a flavor box `box`. */
  function SizePrepared(source: Dims, box: Dims): (r: Dims)
    // fits the box
    ensures r.width <= box.width && r.height <= box.height
    // never upscales
    ensures r.width <= source.width && r.height <= source.height
    ensures Fits(source, box) ==> r == source
    // the axis with the strictly larger ratio keeps the box bound, the other
    // is the proportional size rounded
    ensures !Fits(source, box) && HeightBound(source, box) ==>
              r.height == box.height
              && ScaledAxis(r.width, source.width * box.height, source.height)
    ensures !Fits(source, box) && !HeightBound(source, box) ==>
              r.width == box.width
              && ScaledAxis(r.height, source.height * box.width, source.width)
  {
    if Fits(source, box) then
      source
    else if HeightBound(source, box) then
      HeightBoundShrinks(source, box);
      Dims(ProportionalWidth(source, box), box.height)
    else
      WidthBoundShrinks(source, box);
      Dims(box.width, ProportionalHeight(source, box))
  }

  /** `MAX (rint (sw / hratio), 1)` when the height ratio wins. */
  function ProportionalWidth(source: Dims, box: Dims): (w: Pos)
    requires !Fits(source, box) && HeightBound(source, box)
    ensures w <= box.width && w <= source.width
    ensures ScaledAxis(w, source.width * box.height, source.height)
  {
    var n := source.width * box.height;
    var w := RoundHalfEven(n, source.height);
    HeightBoundShrinks(source, box);
    RoundedAtMost(w, n, source.height, box.width);
    RoundedAtMost(w, n, source.height, source.width);
    AtLeastOne(w)
  }

  /** `MAX (rint (sh / wratio), 1)` when the width ratio wins or ties. */
  function ProportionalHeight(source: Dims, box: Dims): (h: Pos)
    requires !Fits(source, box) && !HeightBound(source, box)
    ensures h <= box.height && h <= source.height
    ensures ScaledAxis(h, source.height * box.width, source.width)
  {
    var n := source.height * box.width;
    var h := RoundHalfEven(n, source.width);
    WidthBoundShrinks(source, box);
    RoundedAtMost(h, n, source.width, box.height);
    RoundedAtMost(h, n, source.width, source.height);
    AtLeastOne(h)
  }

  /** When the height ratio wins, the height really is the oversized side and
      the proportional width stays under both the box and the source. */
  lemma HeightBoundShrinks(source: Dims, box: Dims)
    requires !Fits(source, box) && HeightBound(source, box)
    ensures box.height < source.height
    ensures source.width * box.height <= source.height * box.width
    ensures source.width * box.height <= source.height * source.width
  {
    var sw, sh, dw, dh := source.width, source.height, box.width, box.height;
    if sh <= dh {
      MulAtLeast(sw, dw + 1, dh);
      MulAtLeast(dh, sh, dw);
      assert false;
    }
    MulAtLeast(sh, dh, sw);
    assert sh * sw == sw * sh;
  }

  /** When the width ratio wins (or ties), the width is the oversized side
      and the proportional height stays under both the box and the source. */
  lemma WidthBoundShrinks(source: Dims, box: Dims)
    requires !Fits(source, box) && !HeightBound(source, box)
    ensures box.width < source.width
    ensures source.height * box.width <= source.width * box.height
    ensures source.height * box.width <= source.width * source.height
  {
    var sw, sh, dw, dh := source.width, source.height, box.width, box.height;
    if sw <= dw {
      MulAtLeast(sh, dh + 1, dw);
      MulAtLeast(dw, sw, dh);
      assert false;
    }
    MulAtLeast(sw, dw, sh);
    assert sh * sw == sw * sh;
  }

  /** A nearest-even rounding of n/d with n <= d*bound is at most bound. */
  lemma RoundedAtMost(r: int, n: int, d: int, bound: int)
    requires d > 0 && NearestEven(r, n, d)
    requires n <= d * bound
    ensures r <= bound
  {
    if r > bound {
      MulAtLeast(r, bound + 1, d);
      assert false;
    }
  }
}

=== FILE: selection.dfy ===
/** `find_best_thumbnail_image` (dir-thumbnailer.c): the scan over a
    `.thumbnails` directory that picks the cached image to decode.

    The directory listing is a sequence of names in whatever order the file
    system returns them; the scan is a left fold of `Step` over it. What the
    fold computes is stated by `Expected`, a closed form over the qualifying
    sizes in scan order:
      - no qualifying name: nothing;
      - every size below the request: the largest size;
      - otherwise, look at the first size that reaches the request in scan
        order: if it equals the request, the request; if it exceeds it, the
        smallest size above the request.
    So an oversized candidate beats any undersized one, and an exact match
    wins only when no oversized candidate was seen before it. */
module Selection {
  import opened Common
  import opened Filenames

  /** The scan's running choice: `best_size` and the name behind `best_match`. */
  datatype Best = Best(size: Pos, name: string)

  /** One iteration of the scan loop over `name`. */
  function Step(best: Option<Best>, name: string, requested: int): (r: Option<Best>)
    // the choice is either kept or replaced by this name, with its own size
    ensures r == best || (SizeOf(name).Some? && r == Some(Best(SizeOf(name).value, name)))
    ensures best.Some? ==> r.Some?
    // an exact match is never displaced
    ensures best.Some? && best.value.size == requested ==> r == best
    // an oversized choice stays oversized and only shrinks
    ensures best.Some? && best.value.size > requested ==>
              requested < r.value.size <= best.value.size
    // an undersized choice only grows
    ensures best.Some? && best.value.size < requested ==> best.value.size <= r.value.size
    // a name of the same size as the choice never displaces it
    ensures best.Some? && SizeOf(name) == Some(best.value.size) ==> r == best
  {
    match SizeOf(name)
    case None => best
    case Some(size) =>
      if best.None? then
        Some(Best(size, name))
      else if size <= requested && size > best.value.size then
        Some(Best(size, name))
      else if best.value.size > requested && size < best.value.size && size > requested then
        Some(Best(size, name))
      else if best.value.size < requested && size > requested then
        Some(Best(size, name))
      else
        best
  }

  /** The scan loop from a given running choice over the remaining names. */
  function Scan(best: Option<Best>, names: seq<string>, requested: int): Option<Best>
    decreases |names|
  {
    if |names| == 0 then best
    else Scan(Step(best, names[0], requested), names[1..], requested)
  }

  /** The scan from its initial state (`best_size == -1`, no match). */
  function FindBest(names: seq<string>, requested: int): Option<Best>
  {
    Scan(None, names, requested)
  }

  /** The sizes of the qualifying names, in scan order. */
  function Sizes(names: seq<string>): (sizes: seq<Pos>)
    ensures forall i :: 0 <= i < |names| && SizeOf(names[i]).Some? ==> SizeOf(names[i]).value in sizes
    ensures |sizes| == 0 <==> forall i :: 0 <= i < |names| ==> SizeOf(names[i]).None?
  {
    if |names| == 0 then []
    else
      var init := names[..|names| - 1];
      var last := names[|names| - 1];
      var rest := Sizes(init);
      assert forall j :: 0 <= j < |init| ==> names[j] == init[j];
      match SizeOf(last)
      case Some(s) => rest + [s]
      case None => rest
  }

  /** `Sizes` lists the qualifying names' sizes and nothing else, in listing
      order: entry k is the size of the name at position ps[k], and the
      positions strictly increase. */
  lemma {:induction false} SizesInListingOrder(names: seq<string>) returns (ps: seq<nat>)
    ensures |ps| == |Sizes(names)|
    ensures forall k :: 0 <= k < |ps| ==> ps[k] < |names| && SizeOf(names[ps[k]]) == Some(Sizes(names)[k])
    ensures forall k, l :: 0 <= k < l < |ps| ==> ps[k] < ps[l]
  {
    if |names| == 0 {
      ps := [];
    } else {
      var init := names[..|names| - 1];
      var rest := SizesInListingOrder(init);
      ps := ExtendPositions(names, rest);
    }
  }

  /** One step of `SizesInListingOrder`: positions for all but the last name
      extend to positions for the whole listing. */
  lemma ExtendPositions(names: seq<string>, rest: seq<nat>) returns (ps: seq<nat>)
    requires |names| > 0
    requires |rest| == |Sizes(names[..|names| - 1])|
    requires forall k :: 0 <= k < |rest| ==>
               rest[k] < |names| - 1 && SizeOf(names[..|names| - 1][rest[k]]) == Some(Sizes(names[..|names| - 1])[k])
    requires forall k, l :: 0 <= k < l < |rest| ==> rest[k] < rest[l]
    ensures |ps| == |Sizes(names)|
    ensures forall k :: 0 <= k < |ps| ==> ps[k] < |names| && SizeOf(names[ps[k]]) == Some(Sizes(names)[k])
    ensures forall k, l :: 0 <= k < l < |ps| ==> ps[k] < ps[l]
  {
    var last := SizeOf(names[|names| - 1]);
    var sizes := Sizes(names[..|names| - 1]);
    SizesUnfold(names);
    if last.Some? {
      ps := rest + [|names| - 1];
    } else {
      ps := rest;
    }
  }

  /** `Sizes` of a non-empty listing is `Sizes` of all but its last name, plus
      the last name's size when it has one. */
  lemma SizesUnfold(names: seq<string>)
    requires |names| > 0
    ensures Sizes(names) == Sizes(names[..|names| - 1]) +
              (if SizeOf(names[|names| - 1]).Some? then [SizeOf(names[|names| - 1]).value] else [])
  { }

  function Largest(sizes: seq<int>): (m: int)
    requires |sizes| > 0
    ensures m in sizes && forall i :: 0 <= i < |sizes| ==> sizes[i] <= m
  {
    if |sizes| == 1 then sizes[0]
    else
      var m := Largest(sizes[..|sizes| - 1]);
      assert forall i :: 0 <= i < |sizes| - 1 ==> sizes[..|sizes| - 1][i] == sizes[i];
      Max(m, sizes[|sizes| - 1])
  }

  function SmallestAbove(sizes: seq<int>, requested: int): (m: int)
    requires exists i :: 0 <= i < |sizes| && sizes[i] > requested
    ensures m in sizes && m > requested
    ensures forall i :: 0 <= i < |sizes| && sizes[i] > requested ==> m <= sizes[i]
  {
    var init := sizes[..|sizes| - 1];
    var last := sizes[|sizes| - 1];
    assert forall i :: 0 <= i < |init| ==> init[i] == sizes[i];
    if exists i :: 0 <= i < |init| && init[i] > requested then
      var m := SmallestAbove(init, requested);
      if last > requested && last < m then last else m
    else
      last
  }

  /** The position of the first size that reaches the request. */
  function FirstAtLeast(sizes: seq<int>, requested: int): (k: nat)
    requires exists i :: 0 <= i < |sizes| && sizes[i] >= requested
    ensures k < |sizes| && sizes[k] >= requested
    ensures forall j :: 0 <= j < k ==> sizes[j] < requested
  {
    if sizes[0] >= requested then 0
    else
      var i :| 0 <= i < |sizes| && sizes[i] >= requested;
      assert sizes[1..][i - 1] == sizes[i];
      1 + FirstAtLeast(sizes[1..], requested)
  }

  /** The size the scan settles on, as a closed form over the qualifying
      sizes in scan order. */
  function Expected(sizes: seq<int>, requested: int): Option<int>
  {
    if |sizes| == 0 then None
    else if forall i :: 0 <= i < |sizes| ==> sizes[i] < requested then
      Some(Largest(sizes))
    else if sizes[FirstAtLeast(sizes, requested)] == requested then
      Some(requested)
    else
      Some(SmallestAbove(sizes, requested))
  }

  lemma {:induction false} ScanAppend(best: Option<Best>, names: seq<string>, last: string, requested: int)
    ensures Scan(best, names + [last], requested) == Step(Scan(best, names, requested), last, requested)
    decreases |names|
  {
    if |names| == 0 {
      assert [last][1..] == [];
    } else {
      assert (names + [last])[1..] == names[1..] + [last];
      ScanAppend(Step(best, names[0], requested), names[1..], last, requested);
    }
  }

  /** Appending one size to the sizes seen so far moves the closed form the
      way one `Step` moves the scan. */
  lemma ExpectedAppend(sizes: seq<int>, s: int, requested: int)
    requires |sizes| > 0
    ensures var e := Expected(sizes, requested).value;
            var e' := Expected(sizes + [s], requested).value;
            && (e < requested && s < requested ==> e' == Max(e, s))
            && (e < requested && s >= requested ==> e' == s)
            && (e == requested ==> e' == requested)
            && (e > requested ==> e' == if requested < s < e then s else e)
  {
    if forall i :: 0 <= i < |sizes| ==> sizes[i] < requested {
      ExpectedAppendBelow(sizes, s, requested);
    } else {
      ExpectedAppendReached(sizes, s, requested);
    }
  }

  /** Appending to sizes that all lie below the request. */
  lemma ExpectedAppendBelow(sizes: seq<int>, s: int, requested: int)
    requires |sizes| > 0 && forall i :: 0 <= i < |sizes| ==> sizes[i] < requested
    ensures Expected(sizes, requested) == Some(Largest(sizes))
    ensures s < requested ==> Expected(sizes + [s], requested) == Some(Max(Largest(sizes), s))
    ensures s >= requested ==> Expected(sizes + [s], requested) == Some(s)
  {
    var all := sizes + [s];
    assert forall i :: 0 <= i < |sizes| ==> all[i] == sizes[i];
    assert all[|sizes|] == s;
    if s < requested {
      assert Largest(all) == Max(Largest(sizes), s);
    } else {
      assert FirstAtLeast(all, requested) == |sizes|;
      if s > requested {
        assert SmallestAbove(all, requested) == s;
      }
    }
  }

  /** Appending to sizes of which one already reaches the request: the
      first size to reach it does not move. */
  lemma ExpectedAppendReached(sizes: seq<int>, s: int, requested: int)
    requires exists i :: 0 <= i < |sizes| && sizes[i] >= requested
    ensures var k := FirstAtLeast(sizes, requested);
            && (sizes[k] == requested ==> Expected(sizes + [s], requested) == Some(requested))
            && (sizes[k] > requested ==>
                  var e := SmallestAbove(sizes, requested);
                  && Expected(sizes, requested) == Some(e)
                  && Expected(sizes + [s], requested) == Some(if requested < s < e then s else e))
  {
    var all := sizes + [s];
    assert forall i :: 0 <= i < |sizes| ==> all[i] == sizes[i];
    assert all[|sizes|] == s;
    var k := FirstAtLeast(sizes, requested);
    assert FirstAtLeast(all, requested) == k;
    if sizes[k] > requested {
      var e := SmallestAbove(sizes, requested);
      assert SmallestAbove(all, requested) == if requested < s < e then s else e;
    }
  }

  /** The scan computes the closed form: it selects nothing exactly when no
      name qualifies, and otherwise a name whose size is `Expected`. */
  lemma {:induction false} FindBestMatchesReference(names: seq<string>, requested: int)
    ensures FindBest(names, requested).None? <==> |Sizes(names)| == 0
    ensures FindBest(names, requested).Some? ==>
              Expected(Sizes(names), requested) == Some(FindBest(names, requested).value.size)
  {
    if |names| > 0 {
      var init, last := names[..|names| - 1], names[|names| - 1];
      assert names == init + [last];
      FindBestMatchesReference(init, requested);
      ScanAppend(None, init, last, requested);
      StepMatchesReference(FindBest(init, requested), Sizes(init), last, requested);
    }
  }

  /** One `Step` on a choice that agrees with the closed form keeps it in
      agreement once the name's size, if any, joins the sizes. */
  lemma StepMatchesReference(best: Option<Best>, sizes: seq<Pos>, last: string, requested: int)
    requires best.None? <==> |sizes| == 0
    requires best.Some? ==> Expected(sizes, requested) == Some(best.value.size)
    ensures var all := if SizeOf(last).Some? then sizes + [SizeOf(last).value] else sizes;
            var r := Step(best, last, requested);
            && (r.None? <==> |all| == 0)
            && (r.Some? ==> Expected(all, requested) == Some(r.value.size))
  {
    if SizeOf(last).Some? {
      var s := SizeOf(last).value;
      if |sizes| > 0 {
        ExpectedAppend(sizes, s, requested);
      } else {
        assert sizes + [s] == [s];
      }
    }
  }

  /** Every choice the scan makes is a qualifying name carrying its own size. */
  lemma {:induction false} ScanChoosesCandidate(best: Option<Best>, names: seq<string>, requested: int)
    requires best.Some? ==> SizeOf(best.value.name) == Some(best.value.size)
    ensures var r := Scan(best, names, requested);
            && (best.Some? ==> r.Some?)
            && (r.Some? ==> SizeOf(r.value.name) == Some(r.value.size))
            && (r.Some? ==> r == best || r.value.name in names)
    decreases |names|
  {
    if |names| > 0 {
      var next := Step(best, names[0], requested);
      ScanChoosesCandidate(next, names[1..], requested);
      assert forall n :: n in names[1..] ==> n in names;
    }
  }

  /** Once the choice is an exact match, the rest of the scan keeps it. */
  lemma {:induction false} ScanKeepsExactMatch(b: Best, names: seq<string>, requested: int)
    requires b.size == requested
    ensures Scan(Some(b), names, requested) == Some(b)
    decreases |names|
  {
    if |names| > 0 {
      ScanKeepsExactMatch(b, names[1..], requested);
    }
  }

  /** Once the choice is oversized, it stays oversized, never grows, and ends
      no larger than any oversized name still to come: no name at or below
      the request can replace it. */
  lemma {:induction false} ScanOversizedShrinks(b: Best, names: seq<string>, requested: int)
    requires b.size > requested
    ensures Scan(Some(b), names, requested).Some?
    ensures var r := Scan(Some(b), names, requested).value;
            && requested < r.size <= b.size
            && forall i :: 0 <= i < |names| && SizeOf(names[i]).Some? && SizeOf(names[i]).value > requested ==>
                 r.size <= SizeOf(names[i]).value
    decreases |names|
  {
    if |names| > 0 {
      var next := Step(Some(b), names[0], requested).value;
      ScanOversizedShrinks(next, names[1..], requested);
      assert forall i :: 1 <= i < |names| ==> names[1..][i - 1] == names[i];
    }
  }

  /** When no qualifying size exceeds the request, the scan picks the largest
      qualifying size. */
  lemma SelectsLargestWhenNothingOversized(names: seq<string>, requested: int)
    requires forall i :: 0 <= i < |Sizes(names)| ==> Sizes(names)[i] <= requested
    ensures FindBest(names, requested).Some? <==> exists i :: 0 <= i < |names| && SizeOf(names[i]).Some?
    ensures FindBest(names, requested).Some? ==>
              forall i :: 0 <= i < |names| && SizeOf(names[i]).Some? ==>
                SizeOf(names[i]).value <= FindBest(names, requested).value.size
  {
    FindBestMatchesReference(names, requested);
    var sizes := Sizes(names);
    if |sizes| > 0 && exists i :: 0 <= i < |sizes| && sizes[i] >= requested {
      var k := FirstAtLeast(sizes, requested);
      assert sizes[k] == requested;
    }
  }

  /** When the first qualifying size that reaches the request exceeds it, the
      scan picks the smallest size above the request, wherever it lies. */
  lemma SelectsSmallestOversized(names: seq<string>, requested: int, k: nat)
    requires k < |Sizes(names)| && Sizes(names)[k] > requested
    requires forall j :: 0 <= j < k ==> Sizes(names)[j] < requested
    ensures FindBest(names, requested).Some?
    ensures requested < FindBest(names, requested).value.size
    ensures forall i :: 0 <= i < |names| && SizeOf(names[i]).Some? && SizeOf(names[i]).value > requested ==>
              FindBest(names, requested).value.size <= SizeOf(names[i]).value
  {
    FindBestMatchesReference(names, requested);
    var sizes := Sizes(names);
    assert FirstAtLeast(sizes, requested) == k;
  }

  /** When the first qualifying size that reaches the request equals it, the
      scan picks an exact match, whatever follows. */
  lemma SelectsExactMatchSeenFirst(names: seq<string>, requested: int, k: nat)
    requires k < |Sizes(names)| && Sizes(names)[k] == requested
    requires forall j :: 0 <= j < k ==> Sizes(names)[j] < requested
    ensures FindBest(names, requested).Some?
    ensures FindBest(names, requested).value.size == requested
  {
    FindBestMatchesReference(names, requested);
    var sizes := Sizes(names);
    assert FirstAtLeast(sizes, requested) == k;
  }

  /** Scan order matters only through an exact match: two listings with the
      same qualifying sizes, none equal to the request, select the same size. */
  lemma SelectionIgnoresOrderWithoutExactMatch(a: seq<string>, b: seq<string>, requested: int)
    ensures (forall x :: x in Sizes(a) <==> x in Sizes(b)) && requested !in Sizes(a) ==>
              && (FindBest(a, requested).None? <==> FindBest(b, requested).None?)
              && (FindBest(a, requested).Some? ==>
                    FindBest(b, requested).Some? && FindBest(a, requested).value.size == FindBest(b, requested).value.size)
  {
    var sa, sb := Sizes(a), Sizes(b);
    if (forall x :: x in sa <==> x in sb) && requested !in sa {
      FindBestMatchesReference(a, requested);
      FindBestMatchesReference(b, requested);
      assert |sa| == 0 <==> |sb| == 0 by {
        if |sa| > 0 {
          assert sa[0] in sb;
        }
        if |sb| > 0 {
          assert sb[0] in sa;
        }
      }
      if |sa| > 0 {
        ExpectedIgnoresOrder(sa, sb, requested);
      }
    }
  }

  /** Two sequences holding the same sizes, none equal to the request, have
      the same closed form. */
  lemma ExpectedIgnoresOrder(sa: seq<int>, sb: seq<int>, requested: int)
    requires |sa| > 0 && |sb| > 0
    requires forall x :: x in sa <==> x in sb
    requires requested !in sa
    ensures Expected(sa, requested) == Expected(sb, requested)
  {
    if exists i :: 0 <= i < |sa| && sa[i] > requested {
      var i :| 0 <= i < |sa| && sa[i] > requested;
      assert sa[i] in sb;
      var j :| 0 <= j < |sb| && sb[j] == sa[i];
      ExpectedAboveWithoutExactMatch(sa, requested);
      ExpectedAboveWithoutExactMatch(sb, requested);
      SmallestAboveSameMembers(sa, sb, requested);
    } else {
      assert forall i :: 0 <= i < |sb| ==> sb[i] < requested by {
        forall i | 0 <= i < |sb|
          ensures sb[i] < requested
        {
          assert sb[i] in sb;
          var k :| 0 <= k < |sa| && sa[k] == sb[i];
        }
      }
      assert forall i :: 0 <= i < |sa| ==> sa[i] < requested by {
        forall i | 0 <= i < |sa|
          ensures sa[i] < requested
        {
          assert sa[i] in sa;
        }
      }
      LargestSameMembers(sa, sb);
    }
  }

  /** Without an exact match, a size above the request makes the closed
      form the smallest size above it. */
  lemma ExpectedAboveWithoutExactMatch(sizes: seq<int>, requested: int)
    requires requested !in sizes
    requires exists i :: 0 <= i < |sizes| && sizes[i] > requested
    ensures Expected(sizes, requested) == Some(SmallestAbove(sizes, requested))
  {
    var k := FirstAtLeast(sizes, requested);
    assert sizes[k] in sizes;
  }

  lemma LargestSameMembers(sa: seq<int>, sb: seq<int>)
    requires |sa| > 0 && |sb| > 0
    requires forall x :: x in sa <==> x in sb
    ensures Largest(sa) == Largest(sb)
  {
    var ma, mb := Largest(sa), Largest(sb);
    assert ma in sb && mb in sa;
    var i :| 0 <= i < |sb| && sb[i] == ma;
    var j :| 0 <= j < |sa| && sa[j] == mb;
  }

  lemma SmallestAboveSameMembers(sa: seq<int>, sb: seq<int>, requested: int)
    requires exists i :: 0 <= i < |sa| && sa[i] > requested
    requires exists i :: 0 <= i < |sb| && sb[i] > requested
    requires forall x :: x in sa <==> x in sb
    ensures SmallestAbove(sa, requested) == SmallestAbove(sb, requested)
  {
    var ma, mb := SmallestAbove(sa, requested), SmallestAbove(sb, requested);
    assert ma in sb && mb in sa;
    var i :| 0 <= i < |sb| && sb[i] == ma;
    var j :| 0 <= j < |sa| && sa[j] == mb;
  }

  lemma ComposePlain(digits: string)
    ensures Compose("", false, digits, "png") == digits + ".png"
  {
    assert "" + "" + digits == digits;
    assert digits + "." + "png" == digits + ("." + "png");
    assert "." + "png" == ".png";
  }

  /** A plain numbered name such as `128.png` advertises its number. */
  lemma PlainNumberedName(digits: string)
    requires |digits| > 0 && AllDigits(digits) && DecimalValue(digits) > 0
    ensures SizeOf(digits + ".png") == Some(DecimalValue(digits))
  {
    PngIsImageExtension();
    assert NumberedName("", false, digits, "png");
    SizeOfNumberedName("", false, digits, "png");
    ComposePlain(digits);
  }

  lemma PngIsImageExtension()
    ensures IsImageExtension("png")
  {
    assert AsciiDown("png") == "png";
  }

  /** The three cached names the scenarios below use. */
  lemma ScenarioSizes()
    ensures SizeOf("128.png") == Some(128)
    ensures SizeOf("200.png") == Some(200)
    ensures SizeOf("256.png") == Some(256)
  {
    Size128();
    Size200();
    Size256();
  }

  // One lemma per concrete name, rather than one quantified over the three:
  // each `SizeOf` of a literal unfolds the whole parser, and keeping the
  // unfoldings in separate proofs keeps each proof small.
  lemma Size128()
    ensures SizeOf("128.png") == Some(128)
  {
    Decimal128();
    PlainNumberedName("128");
    assert "128" + ".png" == "128.png";
  }

  lemma Size200()
    ensures SizeOf("200.png") == Some(200)
  {
    Decimal200();
    PlainNumberedName("200");
    assert "200" + ".png" == "200.png";
  }

  lemma Size256()
    ensures SizeOf("256.png") == Some(256)
  {
    Decimal256();
    PlainNumberedName("256");
    assert "256" + ".png" == "256.png";
  }

  lemma Decimal128()
    ensures AllDigits("128") && DecimalValue("128") == 128
  {
    assert "128"[..2] == "12" && "12"[..1] == "1" && "1"[..0] == "";
  }

  lemma Decimal200()
    ensures AllDigits("200") && DecimalValue("200") == 200
  {
    assert "200"[..2] == "20" && "20"[..1] == "2" && "2"[..0] == "";
  }

  lemma Decimal256()
    ensures AllDigits("256") && DecimalValue("256") == 256
  {
    assert "256"[..2] == "25" && "25"[..1] == "2" && "2"[..0] == "";
  }

  /** A two-name scan, spelled out. */
  lemma ScanTwo(first: string, second: string, requested: int)
    ensures FindBest([first, second], requested) == Step(Step(None, first, requested), second, requested)
  {
    var one := Step(None, first, requested);
    assert [first, second][1..] == [second];
    assert [second][1..] == [];
    assert Scan(one, [second], requested) == Scan(Step(one, second, requested), [], requested);
  }

  /** With cached sizes 128 and 256 and a request of 200, the scan selects
      256 in either order: the oversized image beats the closer undersized
      one. */
  lemma OversizedBeatsUndersized()
    ensures FindBest(["128.png", "256.png"], 200) == Some(Best(256, "256.png"))
    ensures FindBest(["256.png", "128.png"], 200) == Some(Best(256, "256.png"))
  {
    ScenarioSizes();
    ScanTwo("128.png", "256.png", 200);
    ScanTwo("256.png", "128.png", 200);
  }

  /** With an exact match and a larger size, the order decides: the exact
      match wins only if it is listed first. */
  lemma ExactMatchDependsOnOrder()
    ensures FindBest(["200.png", "256.png"], 200) == Some(Best(200, "200.png"))
    ensures FindBest(["256.png", "200.png"], 200) == Some(Best(256, "256.png"))
  {
    ScenarioSizes();
    ScanTwo("200.png", "256.png", 200);
    ScanTwo("256.png", "200.png", 200);
  }

  /** Once the choice refuses a name, it refuses it after any further
      `Step`: the sizes a choice refuses only ever grow as the scan goes on. */
  lemma StepKeepsRefusal(best: Option<Best>, last: string, name: string, requested: int)
    ensures Step(best, name, requested) == best ==>
              var next := Step(best, last, requested);
              Step(next, name, requested) == next
  {
  }

  /** A size the scan has already seen can no longer change its choice. */
  lemma {:induction false} SeenSizeRefused(names: seq<string>, j: nat, name: string, requested: int)
    ensures j < |names| && SizeOf(names[j]).Some? && SizeOf(name) == SizeOf(names[j]) ==>
              Step(FindBest(names, requested), name, requested) == FindBest(names, requested)
  {
    if j < |names| && SizeOf(names[j]).Some? && SizeOf(name) == SizeOf(names[j]) {
      var init, last := names[..|names| - 1], names[|names| - 1];
      assert names == init + [last];
      ScanAppend(None, init, last, requested);
      if j == |init| {
        StepKeepsRefusal(FindBest(init, requested), last, name, requested);
        var next := Step(FindBest(init, requested), last, requested);
        assert next == FindBest(names, requested);
        assert next.Some? && (next.value.name == last || next == FindBest(init, requested));
      } else {
        assert init[j] == names[j];
        SeenSizeRefused(init, j, name, requested);
        StepKeepsRefusal(FindBest(init, requested), last, name, requested);
      }
    }
  }

  /** The scan keeps the first listed name of the size it settles on: no
      earlier name in the listing has that size. */
  lemma {:induction false} ChosenIsFirstOfItsSize(names: seq<string>, requested: int) returns (i: nat)
    ensures FindBest(names, requested).Some? ==>
              && i < |names|
              && names[i] == FindBest(names, requested).value.name
              && SizeOf(names[i]) == Some(FindBest(names, requested).value.size)
              && forall j :: 0 <= j < i ==> SizeOf(names[j]) != SizeOf(names[i])
  {
    i := 0;
    if |names| > 0 {
      var init, last := names[..|names| - 1], names[|names| - 1];
      assert names == init + [last];
      ScanAppend(None, init, last, requested);
      var before := FindBest(init, requested);
      if Step(before, last, requested) == before {
        i := ChosenIsFirstOfItsSize(init, requested);
        assert forall j :: 0 <= j < |init| ==> names[j] == init[j];
      } else {
        i := |init|;
        forall j | 0 <= j < |init|
          ensures SizeOf(names[j]) != SizeOf(last)
        {
          assert names[j] == init[j];
          SeenSizeRefused(init, j, last, requested);
        }
      }
    }
  }

  /** `ChosenIsFirstOfItsSize` with the position left implicit. */
  lemma FirstOfItsSizeListed(names: seq<string>, requested: int)
    ensures FindBest(names, requested).Some? ==>
              exists i :: 0 <= i < |names| && names[i] == FindBest(names, requested).value.name
                          && SizeOf(names[i]).Some?
                          && forall j :: 0 <= j < i ==> SizeOf(names[j]) != SizeOf(names[i])
  {
    var i := ChosenIsFirstOfItsSize(names, requested);
  }

  /** What `g_dir_open` and `g_dir_read_name` yield: no directory handle, or
      the entry names in the order the file system returns them. */
  datatype Listing = Unopenable | Entries(names: seq<string>)

  /** `g_build_filename (dir, name, NULL)`. */
  function JoinPath(dir: string, name: string): string
  {
    dir + "/" + name
  }

  /** `find_best_thumbnail_image (thumbnails_dir, requested_size)`. */
  function FindBestThumbnailImage(dir: string, listing: Listing, requested: int): (r: Option<string>)
    ensures r.None? <==>
              listing.Unopenable? || forall i :: 0 <= i < |listing.names| ==> SizeOf(listing.names[i]).None?
    ensures r.Some? ==>
              && listing.Entries?
              && exists n :: n in listing.names && SizeOf(n).Some? && r.value == JoinPath(dir, n)
                               && Expected(Sizes(listing.names), requested) == Some(SizeOf(n).value as int)
    // among names of the chosen size, the first listed wins
    ensures r.Some? ==>
              exists i :: 0 <= i < |listing.names| && r.value == JoinPath(dir, listing.names[i])
                          && SizeOf(listing.names[i]).Some?
                          && forall j :: 0 <= j < i ==> SizeOf(listing.names[j]) != SizeOf(listing.names[i])
  {
    match listing
    case Unopenable => None
    case Entries(names) =>
      FindBestMatchesReference(names, requested);
      ScanChoosesCandidate(None, names, requested);
      FirstOfItsSizeListed(names, requested);
      match FindBest(names, requested)
      case None => None
      case Some(b) => Some(JoinPath(dir, b.name))
  }
}
